=== FILE: README.md ===
# Refresh-token sessions and the cart store of an Express/Mongoose shop backend

This Dafny project models the two pieces of logic in the backend's
controllers that behave like state machines. It abstracts away the database,
the JWT library, bcrypt and HTTP.

**User sessions** (`src/controllers/user.controllers.js`). The user collection
is a sequence of user documents. A user's id is its position, so the
collection is a map from id to record, and "first match" means insertion
order, which is the order `findOne` scans. Each document holds at most one
stored refresh token (`Option<Token>`).
- The token issuer overwrites the stored token.
- Refresh accepts a presented token only if it verifies and exactly equals the
  stored token. It then rotates the token.
- Logout clears the stored token.
- Register and login put input checks, a user lookup and a duplicate-email
  check in front of this.

**Cart products** (`src/controllers/product.controllers.js` and the schema in
`src/models/product.model.js`). The product collection is a sequence of
documents. Each has an `_id`, a catalogue `id`, the schema's fields and an
optional owner. `Conforms` states the schema's validators. The handlers are:
- listing by owner;
- adding, with field checks and a duplicate check on `id` across all owners;
- updating the quantity of the first product with a given `id`;
- deleting the first product with a given `id`.

Updating and deleting ignore the owner.

Every handler is a pure function. It returns a `Reply`: the collection after
the request, plus either a value or a `Failure(status, reason)`. An exception
that nothing catches (a TypeError on a missing document, a Mongoose cast or
validation error) becomes `Failure(500, Crash)`, and the collection is left
unchanged.

Request values are `JsValue`: undefined, null, boolean, integer number, NaN,
string or object. This lets the model follow JavaScript truthiness, `typeof`,
`String.prototype.trim` and the coercions applied by `<`, `>` and Mongoose's
casts.

Behaviour that lives outside the controllers and the product schema is
passed in as a parameter:
- whether the user schema accepts a new user (`schemaAccepts`);
- the bcrypt comparison (`passwordMatches`);
- the tokens the signer mints, and whether `save` succeeds (`Issuance`);
- the refresh-token signature/expiry check (`verify`);
- JavaScript's string-to-number conversion (`parse`);
- the `_id` the database assigns.

The authenticated user id that the access-token middleware attaches is also a
parameter.

Nothing forces a newly minted refresh token to differ from the previous one:
`jwt.sign` with the same payload in the same second repeats. So every lemma
that needs distinctness takes it as a precondition.

## Model

| member | source | states |
|---|---|---|
| `Users.Issue` | src/controllers/user.controllers.js:7-21 | Success happens exactly when the user exists and the save succeeds. Then the stored refresh token is exactly the returned one, and no other field or user changes. Any failure is 500 "token generation failed": no tokens are returned and nothing is stored. |
| `Users.FindByEmail` | src/controllers/user.controllers.js:73-80 | The lookup finds a user exactly when some user has that email. The user it returns has that email and is the first such user in insertion order. |
| `Users.Register` | src/controllers/user.controllers.js:24-60 | It gives 404 exactly when a field, in the order email, fullname, password, is a non-empty whitespace-only string and every field before it passes. Absent and empty fields pass this check. It gives 409 exactly when the checks pass and some stored user's email equals the value sent, and then creates no user. On success it appends one user with the given fields and no token. Every failure leaves the collection unchanged. Every other failure is a crash (500), as for a truthy field that is not a string. |
| `Users.Login` | src/controllers/user.controllers.js:63-119 | A falsy email or password gives 400. An unknown email gives 404. A wrong password gives 404. A failed issuance gives 500. None of these changes state. Success requires a truthy email and password, the found user and an accepted password. It then stores exactly the returned refresh token on that user only. Conversely, truthy credentials, a found user, an accepted password and a successful save always give success. |
| `Users.Refresh` | src/controllers/user.controllers.js:122-166 | No token in either the cookie or the body gives 401. Every failure is 401 and changes nothing, including a failed issuance, which keeps its reason. Success happens exactly when the presented token (cookie first) is a non-empty string whose check names an existing user whose stored token equals it, and the save succeeds. A token that is not a string or fails the signature check gives 401 "rejected". A verified token naming no user gives 401 "invalid refresh token". A verified token different from the stored one gives 401 "expired or used". On success the stored token becomes the new one. |
| `Users.Logout` | src/controllers/user.controllers.js:169-197 | Logout always succeeds. It clears the user's stored refresh token and changes nothing else. |
| `SessionProperties.CookieTakesPrecedence` | src/controllers/user.controllers.js:123 | When the cookie is truthy, the body's token has no influence on the refresh. |
| `SessionProperties.RefreshTokenIsSingleUse` | src/controllers/user.controllers.js:138-148 | After a successful refresh with token t, and given a fresh token different from t, presenting t again gives 401 and changes nothing. The reason is "expired or used" whenever t still verifies. |
| `SessionProperties.ReissueRevokesPreviousToken` | src/controllers/user.controllers.js:7-16 | A second issuance with a different fresh token (a second login) makes the first refresh token fail with 401, with reason "expired or used" when it verifies. |
| `SessionProperties.LogoutRevokesRefresh` | src/controllers/user.controllers.js:171-181 | After logout, every refresh presenting a token that names the user fails with 401 and changes nothing. |
| `SessionProperties.RegisterLoginRotateScenario` | src/controllers/user.controllers.js:94-148 | For a new user with a non-blank email and password, an unused email and a schema that accepts the document: register, then log in and get R1, then refresh with R1 and get R2. Replaying R1 then fails "expired or used", and refreshing with R2 succeeds. |
| `SessionProperties.HandleKeepsEmailsUnique` | src/controllers/user.controllers.js:35-41 | No single user request makes two users share an email. |
| `SessionProperties.RunKeepsEmailsUnique` | src/controllers/user.controllers.js:35-41 | No sequence of user requests makes two users share an email. |
| `SessionProperties.HandleStoresOnlyMintedTokens` | src/controllers/user.controllers.js:13-14 | After one request, every stored refresh token was either stored before or minted by that request. |
| `SessionProperties.StoredTokensWereMinted` | src/controllers/user.controllers.js:13-14 | After any sequence of requests, every stored token was stored initially or minted by the issuer: the issuer is the only writer. |
| `JsValues.TrimStart` | src/controllers/product.controllers.js:40 | The result is a suffix of the input, everything dropped is whitespace, and the result does not start with whitespace. |
| `JsValues.TrimEnd` | src/controllers/product.controllers.js:40 | The result is a prefix of the input, everything dropped is whitespace, and the result does not end with whitespace. |
| `JsValues.BlankIffAllWhitespace` | src/controllers/product.controllers.js:40 | `s.trim() === ""` holds exactly when every character of s is whitespace. |
| `ProductModel.Build` | src/models/product.model.js:3-49 | A document is built exactly when id casts to a number, the four string paths cast to strings and price, discount, quantity and rating are numbers. It carries those cast values, the given `_id` and the given owner. |
| `ProductModel.OwnerNotRequired` | src/models/product.model.js:44-47 | Whether a product passes validation does not depend on its owner reference. |
| `Products.GetProducts` | src/controllers/product.controllers.js:8-31 | The result is "No product in the cart" exactly when no product belongs to the user. Otherwise the listed products are exactly the stored products the user owns. |
| `Products.ListingCountsOwnedProducts` | src/controllers/product.controllers.js:8-31 | A cart listing holds each product the user owns as many times as it is stored, and no other product. |
| `Sequences.FilterCount` | src/controllers/product.controllers.js:10-16 | A `$match` stage passes every document that satisfies its condition as many times as it is stored, and no other document. |
| `Products.FindById` | src/controllers/product.controllers.js:53 | It finds a product exactly when some product of any owner has the id. It returns the first such product. |
| `Products.AddProduct` | src/controllers/product.controllers.js:34-84 | A blank string among the five string fields gives 400. Otherwise the first non-number or NaN among price, discount, quantity and rating gives 400 naming that field. Otherwise an id already used by any owner gives 409. Conversely, 400 arises only from a blank string or a non-number, and 409 only from an id in use. Any other failure is a crash (500), as for an uncastable id or a document the schema refuses. Every failure leaves the store unchanged. Success appends exactly one product, owned by the caller, carrying the form's values, passing the schema and with an unused id. Success happens whenever every check passes and the schema accepts the document. |
| `Products.UpdateProduct` | src/controllers/product.controllers.js:87-124 | A falsy quantity (0 included) gives 404. A quantity coercing outside 1..10 gives 404. A missing product or a failed cast is a crash. Every failure leaves the store unchanged. Success replaces only the quantity of the first product with the id, whatever its owner, with a value in 1..10. Success happens whenever the quantity is truthy, in range and castable and some product has the cast id. |
| `Products.DeleteProduct` | src/controllers/product.controllers.js:127-149 | Success happens exactly when some product has the cast id. It then removes exactly the first such product and keeps the others in order. Otherwise it is a crash with the store unchanged. |
| `CartProperties.AddKeepsConsistent` | src/controllers/product.controllers.js:52-72 | Adding keeps every product schema-valid, `_id`s distinct and catalogue ids distinct. |
| `CartProperties.UpdateKeepsConsistent` | src/controllers/product.controllers.js:92-111 | Updating keeps the same invariant, including the quantity bounds, without running validators. |
| `CartProperties.DeleteKeepsConsistent` | src/controllers/product.controllers.js:132-135 | Deleting keeps the same invariant. |
| `CartProperties.DeleteRemovesDocument` | src/controllers/product.controllers.js:132-141 | After a delete, no document has the removed `_id` and every other document remains. |
| `CartProperties.AddEnforcesQuantityBounds` | src/models/product.model.js:34-39 | A form whose quantity is outside 1..10 never adds a product. |
| `CartProperties.AddTouchesOnlyAddersCart` | src/controllers/product.controllers.js:60-72 | An added product appears in the adder's listing, and every other user's listing is unchanged. |
| `CartProperties.UpdateReachesAnyOwner` | src/controllers/product.controllers.js:101-111 | A user can set the quantity of a product that another user owns. |
| `CartProperties.DeleteReachesAnyOwner` | src/controllers/product.controllers.js:132-135 | A user can delete a product that another user owns. |
| `CartProperties.ServeAllKeepsConsistent` | src/routes/product.routes.js:13-25 | No sequence of cart requests breaks the schema, duplicates an `_id` or lets two products share a catalogue id. |

## Left out

- The access-token middleware (`verifyJWT`) is not part of this model. The id of the user it authenticates is a parameter of the product handlers and of logout. The refresh handler does not read that id, so the model of refresh ignores the gate that the refresh route applies.
- JWT signing and verification are parameters: the minted tokens in `Issuance`, and `verify` for the refresh check. So are the bcrypt comparison (`passwordMatches`) and the user schema (`schemaAccepts`), because the user model's source is not part of this model. The claim that issued tokens verify to the same user id is therefore an assumption (`Names`), not a theorem.
- Password hashing is not modelled. The stored `password` is the value sent, and `passwordMatches` decides.
- Cookies, response envelopes, the projections `select("-password -refreshToken")` and `select("-user")`, timestamps, async/await and the 16kb body limits are not modelled. The success status codes (200/201) are not modelled either.
- Floating-point numbers are not modelled: numbers are integers, with NaN as a separate value. Arrays are modelled as plain objects: the model's ToNumber gives NaN for them, and both document-path casts refuse them. JavaScript differs for arrays, which convert through their string form, so `[]` is 0 and `[50]` is 50. Query filters are cast by other rules, covered by the lines on filter values below.
- `parse` stands for JavaScript's `Number(string)` and is not defined here.
- Database failures other than the issuance save are not modelled. The checks that re-read a document after a write (500 at user.controllers.js:52-54, product.controllers.js:76-78, 115-117 and 139-141) therefore never fire.
- Products.UpdateProduct: an absent `id` is treated here as a crash, with the store unchanged. By default Mongoose drops a filter key whose value is `undefined`, so `findOne({ id })` then matches every product, and the handler changes the quantity of the first product of any owner. An `id` that cannot be cast to a number does crash: the query throws a cast error, as the model says.
- Products.DeleteProduct: an absent `id` is treated here as a crash, with the store unchanged. Under the same default the lookup matches every product, and the handler deletes the first product of any owner. An uncastable `id` does crash, as the model says.
- Products.AddProduct: an absent `id` is treated here as a crash (500), with the store unchanged. Under the same default the duplicate check matches every product, so the handler answers 409 whenever the store is non-empty. An uncastable `id` does crash, as the model says.
- Users.Register: the duplicate-email lookup compares the value sent with the stored emails, without the user schema's cast of the filter to a string, so a number `5` does not find a stored `"5"`. An absent email passes the field check. By default Mongoose drops a filter key whose value is `undefined`, so the lookup then matches any user and the handler answers 409 whenever a user exists. The model answers 409 only when a stored email is itself absent; otherwise the schema decides between a crash and a new user.
- Users.Login: an object or array sent as `email` is compared by equality here, so it finds no user (404). Mongoose casts a query filter differently from a document path: a `$`-operator object such as `{"$ne": null}` is cast operator by operator, and an array on a non-array path becomes `$in`. Either can match users, and the handler then checks the password against the first match. Query operators are not modelled.
- Products.AddProduct: an operator object or array sent as `id` fails the number cast here and ends in a crash (500). Under Mongoose the `findOne({ id })` duplicate check treats it as a query operator or `$in`, and answers 409 when it matches any product.
- Products.UpdateProduct: an array sent as `quantity` coerces in JavaScript to the number its string form gives. So `[]` (0) or `[50]` is refused with 404 by the range check, where the model, which treats it as an object, ends in a crash.
- Products.UpdateProduct: an operator object or array sent as `id` ends in a crash here. Under Mongoose it can match a product, whose quantity is then changed.
- Products.DeleteProduct: an operator object or array sent as `id` ends in a crash here. Under Mongoose it can match a product, which is then deleted. The success condition stated for this member therefore holds only for ids that cast to a number.
- Concurrency is not modelled. Requests run one at a time, so the race between two concurrent refreshes with the same token cannot arise.

=== FILE: cart_properties.dfy ===
/** Properties of the cart handlers that relate several requests or need an
    invariant of the collection: the schema, distinct `_id`s and distinct
    catalogue ids hold after any sequence of requests; deletion leaves no
    document with the removed `_id`; adding touches only the adder's cart;
    and writes reach products of every owner. */
module CartProperties {
  import opened Outcomes
  import opened JsValues
  import opened Sequences
  import opened ProductModel
  import opened Products

  /** What every reachable collection satisfies when the database hands out
      `_id`s in increasing order starting at `nextOid`: each product passed
      schema validation, `_id`s are below `nextOid` and distinct, and no two
      products share a catalogue id. */
  predicate Consistent(store: Store, nextOid: ObjectId) {
    && (forall i :: 0 <= i < |store| ==> Conforms(store[i]) && store[i].oid < nextOid)
    && (forall i, j :: 0 <= i < j < |store| ==> store[i].oid != store[j].oid && store[i].id != store[j].id)
  }

  lemma AddKeepsConsistent(store: Store, uid: ObjectId, form: ProductForm, nextOid: ObjectId, parse: StringToNumber)
    requires Consistent(store, nextOid)
    ensures Consistent(AddProduct(store, uid, form, nextOid, parse).state, nextOid + 1)
  {
    var r := AddProduct(store, uid, form, nextOid, parse);
    if r.result.Ok? {
      var p := r.result.value;
      forall i, j | 0 <= i < j < |r.state|
        ensures r.state[i].oid != r.state[j].oid && r.state[i].id != r.state[j].id
      {
        if j == |store| {
          assert r.state[i] == store[i];
          assert r.state[j] == p;
        }
      }
    }
  }

  lemma UpdateKeepsConsistent(store: Store, nextOid: ObjectId, uid: ObjectId, id: JsValue, quantity: JsValue,
                              parse: StringToNumber)
    requires Consistent(store, nextOid)
    ensures Consistent(UpdateProduct(store, uid, id, quantity, parse).state, nextOid)
  {
  }

  lemma DeleteKeepsConsistent(store: Store, nextOid: ObjectId, uid: ObjectId, id: JsValue, parse: StringToNumber)
    requires Consistent(store, nextOid)
    ensures Consistent(DeleteProduct(store, uid, id, parse).state, nextOid)
  {
    var r := DeleteProduct(store, uid, id, parse);
    if r.result.Ok? {
      var i :| 0 <= i < |store| && r.state == RemoveAt(store, i);
      var rest := RemoveAt(store, i);
      forall a, b | 0 <= a < b < |rest|
        ensures rest[a].oid != rest[b].oid && rest[a].id != rest[b].id
      {
        var a' := if a < i then a else a + 1;
        var b' := if b < i then b else b + 1;
        assert rest[a] == store[a'] && rest[b] == store[b'];
      }
    }
  }

  /** After a deletion no document carries the removed `_id`, and every
      other document is still there. */
  lemma DeleteRemovesDocument(store: Store, nextOid: ObjectId, uid: ObjectId, id: JsValue, parse: StringToNumber)
    requires Consistent(store, nextOid)
    requires DeleteProduct(store, uid, id, parse).result.Ok?
    ensures var r := DeleteProduct(store, uid, id, parse);
            && |r.state| == |store| - 1
            && (forall q :: q in r.state ==> q.oid != r.result.value.oid)
            && (forall q :: q in store && q.oid != r.result.value.oid ==> q in r.state)
  {
    var r := DeleteProduct(store, uid, id, parse);
    var i :| 0 <= i < |store| && store[i] == r.result.value && r.state == RemoveAt(store, i);
    forall q | q in r.state
      ensures q.oid != r.result.value.oid
    {
      var k :| 0 <= k < |r.state| && r.state[k] == q;
      var k' := if k < i then k else k + 1;
      assert q == store[k'] && k' != i;
    }
    forall q | q in store && q.oid != r.result.value.oid
      ensures q in r.state
    {
      var k :| 0 <= k < |store| && store[k] == q;
      if k < i {
        assert r.state[k] == q;
      } else {
        assert k != i;
        assert r.state[k - 1] == q;
      }
    }
  }

  /** The schema's quantity bounds hold at creation: a form whose quantity
      lies outside 1..10 never adds a product. */
  lemma AddEnforcesQuantityBounds(store: Store, uid: ObjectId, form: ProductForm, oid: ObjectId,
                                  parse: StringToNumber)
    requires form.quantity.Num? && (form.quantity.n < MinQuantity || form.quantity.n > MaxQuantity)
    ensures var r := AddProduct(store, uid, form, oid, parse);
            r.result.Err? && r.state == store
  {
  }

  /** A successful add shows up in the adder's cart listing and leaves every
      other user's listing as it was. */
  lemma AddTouchesOnlyAddersCart(store: Store, uid: ObjectId, other: ObjectId, form: ProductForm,
                                 oid: ObjectId, parse: StringToNumber)
    requires AddProduct(store, uid, form, oid, parse).result.Ok?
    requires other != uid
    ensures var r := AddProduct(store, uid, form, oid, parse);
            && GetProducts(r.state, uid).Items?
            && r.result.value in GetProducts(r.state, uid).items
            && GetProducts(r.state, other) == GetProducts(store, other)
  {
    var r := AddProduct(store, uid, form, oid, parse);
    assert r.state[|store|] == r.result.value;
    FilterAppend(store, r.result.value, (p: Product) => OwnedBy(p, other));
  }

  /** Updating is not scoped to the caller: any authenticated user can set
      the quantity of a product another user owns. */
  lemma UpdateReachesAnyOwner(store: Store, nextOid: ObjectId, uid: ObjectId, i: nat, n: int, parse: StringToNumber)
    requires Consistent(store, nextOid)
    requires i < |store| && store[i].owner != Some(uid)
    requires MinQuantity <= n <= MaxQuantity
    ensures var r := UpdateProduct(store, uid, Num(store[i].id), Num(n), parse);
            r.result.Ok? && r.state == store[i := store[i].(quantity := n)]
  {
    var r := UpdateProduct(store, uid, Num(store[i].id), Num(n), parse);
    assert IdTaken(store, store[i].id);
    var k :| 0 <= k < |store| && Some(store[i].id) == Some(store[k].id)
             && r.result.value == store[k].(quantity := r.result.value.quantity)
             && r.state == store[k := r.result.value];
    assert k == i;
  }

  /** Deleting is not scoped to the caller either. */
  lemma DeleteReachesAnyOwner(store: Store, nextOid: ObjectId, uid: ObjectId, i: nat, parse: StringToNumber)
    requires Consistent(store, nextOid)
    requires i < |store| && store[i].owner != Some(uid)
    ensures var r := DeleteProduct(store, uid, Num(store[i].id), parse);
            r.result == Ok(store[i]) && r.state == RemoveAt(store, i)
  {
    var r := DeleteProduct(store, uid, Num(store[i].id), parse);
    assert IdTaken(store, store[i].id);
    var k :| 0 <= k < |store| && store[k] == r.result.value && Some(store[i].id) == Some(store[k].id)
             && r.state == RemoveAt(store, k);
    assert k == i;
  }

  // ---------------------------------------------------------------------
  // Sequences of requests

  /** One request to a product route, with the authenticated user's id. */
  datatype CartRequest =
    | ListRequest(uid: ObjectId)
    | AddRequest(uid: ObjectId, form: ProductForm)
    | UpdateRequest(uid: ObjectId, id: JsValue, quantity: JsValue)
    | DeleteRequest(uid: ObjectId, id: JsValue)

  /** The collection and the next `_id` after one request; an add is given
      the next `_id`. */
  function Serve(store: Store, nextOid: ObjectId, parse: StringToNumber, req: CartRequest): (Store, ObjectId) {
    match req
    case ListRequest(_) => (store, nextOid)
    case AddRequest(uid, form) => (AddProduct(store, uid, form, nextOid, parse).state, nextOid + 1)
    case UpdateRequest(uid, id, quantity) => (UpdateProduct(store, uid, id, quantity, parse).state, nextOid)
    case DeleteRequest(uid, id) => (DeleteProduct(store, uid, id, parse).state, nextOid)
  }

  function ServeAll(store: Store, nextOid: ObjectId, parse: StringToNumber, reqs: seq<CartRequest>): (Store, ObjectId)
    decreases |reqs|
  {
    if |reqs| == 0 then (store, nextOid)
    else
      var (store', next') := Serve(store, nextOid, parse, reqs[0]);
      ServeAll(store', next', parse, reqs[1..])
  }

  /** No sequence of cart requests breaks the schema, duplicates an `_id` or
      lets two products share a catalogue id. */
  lemma {:induction false} ServeAllKeepsConsistent(store: Store, nextOid: ObjectId, parse: StringToNumber,
                                                   reqs: seq<CartRequest>)
    requires Consistent(store, nextOid)
    ensures Consistent(ServeAll(store, nextOid, parse, reqs).0, ServeAll(store, nextOid, parse, reqs).1)
    decreases |reqs|
  {
    if |reqs| > 0 {
      match reqs[0] {
        case ListRequest(_) =>
        case AddRequest(uid, form) => AddKeepsConsistent(store, uid, form, nextOid, parse);
        case UpdateRequest(uid, id, quantity) => UpdateKeepsConsistent(store, nextOid, uid, id, quantity, parse);
        case DeleteRequest(uid, id) => DeleteKeepsConsistent(store, nextOid, uid, id, parse);
      }
      var (store', next') := Serve(store, nextOid, parse, reqs[0]);
      ServeAllKeepsConsistent(store', next', parse, reqs[1..]);
    }
  }
}

=== FILE: js_values.dfy ===
/** Values as the controllers receive them from a parsed JSON body or a
    cookie, and the JavaScript and Mongoose conversions the controllers apply
    to them: truthiness, `String.prototype.trim`, the coercion done by `<` and
    `>`, and the casts to a schema's `Number` and `String` paths. */
module JsValues {
  import opened Outcomes

  /** A JavaScript value read from a request. Numbers are integers here;
      `NaN` is kept apart because the controllers test for it. `Undefined`
      is an absent field, `Obj` any object or array. */
  datatype JsValue =
    | Undefined
    | Null
    | Bool(b: bool)
    | Num(n: int)
    | NaN
    | Str(s: string)
    | Obj

  /** JavaScript's conversion of a string to a number (`Number(s)`), with
      `None` for NaN. It is a parameter of every operation that needs it. */
  type StringToNumber = string -> Option<int>

  /** What `if (v)`, `a && b` and `a || b` take for true. */
  predicate Truthy(v: JsValue) {
    match v
    case Undefined => false
    case Null => false
    case Bool(b) => b
    case Num(n) => n != 0
    case NaN => false
    case Str(s) => s != ""
    case Obj => true
  }

  /** The characters `trim` removes: the WhiteSpace and LineTerminator
      code points of ECMAScript. */
  predicate IsWhitespace(c: char) {
    || c == '\t' || c == '\n' || c == '\U{000B}' || c == '\U{000C}' || c == '\r'
    || c == ' ' || c == '\U{00A0}' || c == '\U{1680}'
    || ('\U{2000}' <= c <= '\U{200A}')
    || c == '\U{2028}' || c == '\U{2029}' || c == '\U{202F}' || c == '\U{205F}'
    || c == '\U{3000}' || c == '\U{FEFF}'
  }

  predicate AllWhitespace(s: string) {
    forall i :: 0 <= i < |s| ==> IsWhitespace(s[i])
  }

  /** `s` without its leading whitespace. */
  function TrimStart(s: string): (r: string)
    ensures |r| <= |s| && r == s[|s| - |r|..]
    ensures AllWhitespace(s[..|s| - |r|])
    ensures r != [] ==> !IsWhitespace(r[0])
  {
    if |s| > 0 && IsWhitespace(s[0]) then
      var r := TrimStart(s[1..]);
      assert s[..|s| - |r|] == [s[0]] + s[1..][..|s| - 1 - |r|];
      r
    else
      s
  }

  /** `s` without its trailing whitespace. */
  function TrimEnd(s: string): (r: string)
    ensures |r| <= |s| && r == s[..|r|]
    ensures AllWhitespace(s[|r|..])
    ensures r != [] ==> !IsWhitespace(r[|r| - 1])
  {
    if |s| > 0 && IsWhitespace(s[|s| - 1]) then
      var init := s[..|s| - 1];
      var r := TrimEnd(init);
      assert init[..|r|] == s[..|r|];
      assert s[|r|..] == init[|r|..] + [s[|s| - 1]];
      r
    else
      s
  }

  /** `s` without leading and trailing whitespace, as JavaScript's string
      trim does. */
  function Trim(s: string): string {
    TrimEnd(TrimStart(s))
  }

  /** `s` is empty once trimmed. */
  predicate IsBlank(s: string) {
    Trim(s) == ""
  }

  /** A string trims to the empty string exactly when every character of it
      is whitespace. */
  lemma BlankIffAllWhitespace(s: string)
    ensures IsBlank(s) <==> AllWhitespace(s)
  {
    var t := TrimStart(s);
    if IsBlank(s) {
      // everything TrimEnd dropped is whitespace, yet t cannot start with it
      assert AllWhitespace(t[0..]);
      assert t == [];
      assert s[..|s|] == s;
    }
  }

  /** JavaScript's ToNumber as the relational operators apply it; `None` is
      NaN. Plain objects convert to NaN. */
  function ToNumber(v: JsValue, parse: StringToNumber): Option<int> {
    match v
    case Undefined => None
    case Null => Some(0)
    case Bool(b) => Some(if b then 1 else 0)
    case Num(n) => Some(n)
    case NaN => None
    case Str(s) => parse(s)
    case Obj => None
  }

  /** Mongoose's cast of a request value to a `Number` path; `None` when the
      cast throws or leaves no number (null, undefined, the empty string). */
  function CastNumber(v: JsValue, parse: StringToNumber): Option<int> {
    match v
    case Undefined => None
    case Null => None
    case Bool(b) => Some(if b then 1 else 0)
    case Num(n) => Some(n)
    case NaN => None
    case Str(s) => if s == "" then None else parse(s)
    case Obj => None
  }

  /** Mongoose's cast of a request value to a `String` path: primitives are
      converted with `toString`, objects and arrays are refused; `None` also
      for null and undefined. */
  function CastString(v: JsValue): Option<string> {
    match v
    case Undefined => None
    case Null => None
    case Bool(b) => Some(if b then "true" else "false")
    case Num(n) => Some(Decimal(n))
    case NaN => Some("NaN")
    case Str(s) => Some(s)
    case Obj => None
  }

  /** The decimal numeral of `n`, as `Number.prototype.toString` writes an
      integer. */
  function Decimal(n: int): string {
    if n < 0 then "-" + Digits(-n) else Digits(n)
  }

  function Digits(n: nat): string
    decreases n
  {
    var last := ['0', '1', '2', '3', '4', '5', '6', '7', '8', '9'][n % 10];
    if n < 10 then [last] else Digits(n / 10) + [last]
  }
}

=== FILE: outcomes.dfy ===
/** Failure-carrying datatypes shared by the user and the product
    controllers: every handler returns the collection it leaves behind together
    with either a value or the HTTP status and message it answers with. */
module Outcomes {

  datatype Option<+T> = None | Some(value: T)

  /** One constructor per message a handler sends back on failure. */
  datatype Reason =
    // user controllers
    | FieldsRequired
    | EmailTaken
    | CredentialsRequired
    | NoSuchUser
    | PasswordIncorrect
    | TokenGenerationFailed
    | UnauthorizedRequest
    | RefreshTokenRejected
    | InvalidRefreshToken
    | RefreshTokenExpiredOrUsed
    // product controllers
    | StringFieldEmpty
    | NotANumber(field: string)
    | ProductExists
    | QuantityRequired
    | QuantityOutOfRange
    // an exception no handler catches (a TypeError on a missing document,
    // a cast or schema-validation error from the database layer)
    | Crash

  /** The status code and message of a rejected request. */
  datatype Failure = Failure(status: int, reason: Reason)

  datatype Result<+T> = Ok(value: T) | Err(failure: Failure)

  /** The collection after a request, and what the request answered. */
  datatype Reply<S, T> = Reply(state: S, result: Result<T>)

  /** Status code the framework answers with for an uncaught exception. */
  const CrashStatus: int := 500
}

=== FILE: product_model.dfy ===
/** The product schema: the fields of a cart product, the validation
    `Product.create` runs, and how a request body becomes a document. */
module ProductModel {
  import opened Outcomes
  import opened JsValues

  type ObjectId = nat

  /** A stored product. `oid` is the document's `_id`, `id` the catalogue
      number the client sends, `owner` the optional `user` reference. */
  datatype Product = Product(
    oid: ObjectId,
    id: int,
    title: string,
    description: string,
    image: string,
    category: string,
    price: int,
    discount: int,
    quantity: int,
    rating: int,
    owner: Option<ObjectId>)

  const Categories: set<string> := {"electronics", "jewelery", "men's clothing", "women's clothing"}
  const MinQuantity: int := 1
  const MaxQuantity: int := 10

  /** The schema's validators: the required string paths are non-empty (the
      `required` validator refuses ""), the category is one of the enum
      values and the quantity lies between `min` and `max`. The numeric paths
      are always present in this representation, and the owner is not
      required. */
  predicate Conforms(p: Product) {
    && p.title != "" && p.description != "" && p.image != ""
    && p.category in Categories
    && MinQuantity <= p.quantity <= MaxQuantity
  }

  /** The owner reference is not required: a product without an owner
      passes validation exactly when the same product with an owner does. */
  lemma OwnerNotRequired(p: Product, owner: Option<ObjectId>)
    ensures Conforms(p.(owner := owner)) <==> Conforms(p)
  {
  }

  /** The body fields `addProduct` reads. */
  datatype ProductForm = ProductForm(
    id: JsValue,
    title: JsValue,
    description: JsValue,
    image: JsValue,
    category: JsValue,
    price: JsValue,
    discount: JsValue,
    quantity: JsValue,
    rating: JsValue)

  /** The document `Product.create` builds from a form before validation;
      `None` when a value cannot be cast to its path's type or a required
      path is missing. */
  function Build(form: ProductForm, oid: ObjectId, owner: ObjectId, parse: StringToNumber): (r: Option<Product>)
    ensures r.Some? <==>
              && CastNumber(form.id, parse).Some?
              && CastString(form.title).Some? && CastString(form.description).Some?
              && CastString(form.image).Some? && CastString(form.category).Some?
              && form.price.Num? && form.discount.Num? && form.quantity.Num? && form.rating.Num?
    ensures r.Some? ==> BuiltFrom(r.value, form, oid, owner, parse)
  {
    match (CastNumber(form.id, parse), CastString(form.title), CastString(form.description),
           CastString(form.image), CastString(form.category))
    case (Some(id), Some(title), Some(description), Some(image), Some(category)) =>
      if form.price.Num? && form.discount.Num? && form.quantity.Num? && form.rating.Num? then
        Some(Product(oid, id, title, description, image, category,
                     form.price.n, form.discount.n, form.quantity.n, form.rating.n, Some(owner)))
      else None
    case _ => None
  }

  /** `p` carries the form's values, cast to the schema's types, the given
      `_id` and the given owner. */
  predicate BuiltFrom(p: Product, form: ProductForm, oid: ObjectId, owner: ObjectId, parse: StringToNumber) {
    && p.oid == oid && p.owner == Some(owner)
    && CastNumber(form.id, parse) == Some(p.id)
    && CastString(form.title) == Some(p.title)
    && CastString(form.description) == Some(p.description)
    && CastString(form.image) == Some(p.image)
    && CastString(form.category) == Some(p.category)
    && form.price == Num(p.price) && form.discount == Num(p.discount)
    && form.quantity == Num(p.quantity) && form.rating == Num(p.rating)
  }
}

=== FILE: products.dfy ===
/** The product controllers over the product collection: listing the
    current user's cart, adding a product, changing a product's quantity and
    removing a product. Every handler sits behind the access-token check, so
    each receives the authenticated user's id; only listing and adding use
    it. */
module Products {
  import opened Outcomes
  import opened JsValues
  import opened Sequences
  import opened ProductModel

  /** The product collection in natural order. */
  type Store = seq<Product>

  /** The answer of `getProducts`: the "No product in the cart" message, or
      the products found. */
  datatype Listing = EmptyCart | Items(items: seq<Product>)

  predicate OwnedBy(p: Product, uid: ObjectId) {
    p.owner == Some(uid)
  }

  /** `getProducts`: the products whose owner is the current user. */
  function GetProducts(store: Store, uid: ObjectId): (r: Listing)
    ensures r.EmptyCart? <==> forall i :: 0 <= i < |store| ==> !OwnedBy(store[i], uid)
    ensures r.Items? ==> forall i :: 0 <= i < |r.items| ==> r.items[i] in store && OwnedBy(r.items[i], uid)
    ensures r.Items? ==> forall i :: 0 <= i < |store| && OwnedBy(store[i], uid) ==> store[i] in r.items
  {
    var owned := Filter(store, (p: Product) => OwnedBy(p, uid));
    assert forall i :: 0 <= i < |store| && OwnedBy(store[i], uid) ==> store[i] in owned;
    assert forall i :: 0 <= i < |owned| ==> owned[i] in store && OwnedBy(owned[i], uid);
    assert |owned| > 0 ==> exists i :: 0 <= i < |store| && store[i] == owned[0] && OwnedBy(store[i], uid);
    if |owned| == 0 then EmptyCart else Items(owned)
  }

  /** A listing holds each product the user owns as many times as it is
      stored, and nothing else. */
  lemma ListingCountsOwnedProducts(store: Store, uid: ObjectId)
    ensures GetProducts(store, uid).Items? ==>
              forall p :: multiset(GetProducts(store, uid).items)[p] == if OwnedBy(p, uid) then multiset(store)[p] else 0
  {
    FilterCount(store, (p: Product) => OwnedBy(p, uid));
  }

  // ---------------------------------------------------------------------
  // Adding

  /** A string value that is empty once trimmed; values of other types are
      never blank. */
  predicate BlankString(v: JsValue) {
    v.Str? && IsBlank(v.s)
  }

  /** Some string field among id, title, description, image and category is
      blank; values of other types pass. */
  predicate AnyBlankString(form: ProductForm) {
    || BlankString(form.id) || BlankString(form.title) || BlankString(form.description)
    || BlankString(form.image) || BlankString(form.category)
  }

  /** Price, discount, quantity and rating are numbers and not NaN. */
  predicate AllNumbers(form: ProductForm) {
    form.price.Num? && form.discount.Num? && form.quantity.Num? && form.rating.Num?
  }

  /** Some product, whoever owns it, has catalogue id `key`. */
  predicate IdTaken(store: Store, key: int) {
    exists i :: 0 <= i < |store| && store[i].id == key
  }

  /** The product lookup by catalogue id, once the filter value is cast to a
      number: the first product of any owner with that id. */
  function FindById(store: Store, key: int): (r: Option<nat>)
    ensures r.None? <==> !IdTaken(store, key)
    ensures r.Some? ==> r.value < |store| && store[r.value].id == key
    ensures r.Some? ==> forall j :: 0 <= j < r.value ==> store[j].id != key
  {
    FirstIndex(store, (p: Product) => p.id == key)
  }

  /** `addProduct`. The string fields are checked first, then the numeric
      fields in the order price, discount, quantity, rating (the message
      names the first one that fails), then the duplicate check over the whole
      collection, then schema validation. A filter value that cannot be cast,
      and a document the schema refuses, end in an uncaught exception. `oid`
      is the `_id` the database assigns. */
  function AddProduct(store: Store, uid: ObjectId, form: ProductForm, oid: ObjectId,
                      parse: StringToNumber): (r: Reply<Store, Product>)
    ensures r.result.Err? ==> r.state == store
    ensures r.result.Err? ==> r.result.failure.status in {400, 409, CrashStatus}
    ensures r.result.Err? && r.result.failure.status == 400 ==> AnyBlankString(form) || !AllNumbers(form)
    ensures r.result.Err? && r.result.failure.status == 409 ==>
              CastNumber(form.id, parse).Some? && IdTaken(store, CastNumber(form.id, parse).value)
    ensures AnyBlankString(form) ==> r.result == Err(Failure(400, StringFieldEmpty))
    ensures !AnyBlankString(form) && !form.price.Num? ==>
              r.result == Err(Failure(400, NotANumber("price")))
    ensures !AnyBlankString(form) && form.price.Num? && !form.discount.Num? ==>
              r.result == Err(Failure(400, NotANumber("discount")))
    ensures !AnyBlankString(form) && form.price.Num? && form.discount.Num? && !form.quantity.Num? ==>
              r.result == Err(Failure(400, NotANumber("quantity")))
    ensures !AnyBlankString(form) && form.price.Num? && form.discount.Num? && form.quantity.Num?
            && !form.rating.Num? ==>
              r.result == Err(Failure(400, NotANumber("rating")))
    ensures !AnyBlankString(form) && AllNumbers(form)
            && CastNumber(form.id, parse).Some? && IdTaken(store, CastNumber(form.id, parse).value) ==>
              r.result == Err(Failure(409, ProductExists))
    ensures r.result.Ok? ==>
              && !AnyBlankString(form) && AllNumbers(form)
              && r.state == store + [r.result.value]
              && BuiltFrom(r.result.value, form, oid, uid, parse)
              && Conforms(r.result.value)
              && !IdTaken(store, r.result.value.id)
    ensures !AnyBlankString(form) && AllNumbers(form)
            && CastNumber(form.id, parse).Some? && !IdTaken(store, CastNumber(form.id, parse).value)
            && Build(form, oid, uid, parse).Some? && Conforms(Build(form, oid, uid, parse).value) ==>
              r.result.Ok?
  {
    var numbers := [("price", form.price), ("discount", form.discount),
                    ("quantity", form.quantity), ("rating", form.rating)];
    if AnyBlankString(form) then
      Reply(store, Err(Failure(400, StringFieldEmpty)))
    else
      var firstBad := FirstIndex(numbers, (e: (string, JsValue)) => !e.1.Num?);
      assert numbers[0].1 == form.price && numbers[1].1 == form.discount;
      assert numbers[2].1 == form.quantity && numbers[3].1 == form.rating;
      match firstBad
      case Some(i) => Reply(store, Err(Failure(400, NotANumber(numbers[i].0))))
      case None =>
        match CastNumber(form.id, parse)
        case None => Reply(store, Err(Failure(CrashStatus, Crash)))
        case Some(key) =>
          if FindById(store, key).Some? then
            Reply(store, Err(Failure(409, ProductExists)))
          else
            match Build(form, oid, uid, parse)
            case None => Reply(store, Err(Failure(CrashStatus, Crash)))
            case Some(p) =>
              if Conforms(p) then Reply(store + [p], Ok(p))
              else Reply(store, Err(Failure(CrashStatus, Crash)))
  }

  // ---------------------------------------------------------------------
  // Updating

  /** The quantity, coerced to a number as JavaScript's relational operators
      do, lies below the minimum or above the maximum; a value that coerces
      to NaN is in neither range. */
  predicate OutOfRange(quantity: JsValue, parse: StringToNumber) {
    var n := ToNumber(quantity, parse);
    n.Some? && (n.value < MinQuantity || n.value > MaxQuantity)
  }

  /** `updateProduct`: only the quantity changes, on the first product with
      the given id, whoever owns it. A falsy quantity (0 included) and one
      outside 1..10 are refused with 404; a missing product, or a filter or
      quantity that cannot be cast, ends in an uncaught exception. */
  function UpdateProduct(store: Store, uid: ObjectId, id: JsValue, quantity: JsValue,
                         parse: StringToNumber): (r: Reply<Store, Product>)
    ensures r.result.Err? ==> r.state == store
    ensures r.result.Err? ==>
              r.result.failure in {Failure(404, QuantityRequired), Failure(404, QuantityOutOfRange),
                                   Failure(CrashStatus, Crash)}
    ensures !Truthy(quantity) ==> r.result == Err(Failure(404, QuantityRequired))
    ensures Truthy(quantity) && OutOfRange(quantity, parse) ==> r.result == Err(Failure(404, QuantityOutOfRange))
    ensures r.result.Ok? ==>
              && MinQuantity <= r.result.value.quantity <= MaxQuantity
              && CastNumber(quantity, parse) == Some(r.result.value.quantity)
              && exists i :: 0 <= i < |store| && CastNumber(id, parse) == Some(store[i].id)
                   && (forall j :: 0 <= j < i ==> store[j].id != store[i].id)
                   && r.result.value == store[i].(quantity := r.result.value.quantity)
                   && r.state == store[i := r.result.value]
    ensures Truthy(quantity) && !OutOfRange(quantity, parse) && CastNumber(quantity, parse).Some?
            && CastNumber(id, parse).Some? && IdTaken(store, CastNumber(id, parse).value) ==>
              r.result.Ok?
  {
    if !Truthy(quantity) then
      Reply(store, Err(Failure(404, QuantityRequired)))
    else if OutOfRange(quantity, parse) then
      Reply(store, Err(Failure(404, QuantityOutOfRange)))
    else
      match CastNumber(id, parse)
      case None => Reply(store, Err(Failure(CrashStatus, Crash)))
      case Some(key) =>
        match FindById(store, key)
        case None => Reply(store, Err(Failure(CrashStatus, Crash)))
        case Some(i) =>
          match CastNumber(quantity, parse)
          case None => Reply(store, Err(Failure(CrashStatus, Crash)))
          case Some(q) =>
            var updated := store[i].(quantity := q);
            Reply(store[i := updated], Ok(updated))
  }

  // ---------------------------------------------------------------------
  // Deleting

  /** `deleteProduct`: remove the first product with the given id, whoever
      owns it; a missing product ends in an uncaught exception. The removed
      product is returned so that properties can name it; the response body
      is empty. */
  function DeleteProduct(store: Store, uid: ObjectId, id: JsValue, parse: StringToNumber): (r: Reply<Store, Product>)
    ensures r.result.Err? ==> r.state == store && r.result.failure == Failure(CrashStatus, Crash)
    ensures r.result.Ok? <==> CastNumber(id, parse).Some? && IdTaken(store, CastNumber(id, parse).value)
    ensures r.result.Ok? ==>
              exists i :: 0 <= i < |store| && store[i] == r.result.value
                && CastNumber(id, parse) == Some(store[i].id)
                && (forall j :: 0 <= j < i ==> store[j].id != store[i].id)
                && r.state == RemoveAt(store, i)
  {
    match CastNumber(id, parse)
    case None => Reply(store, Err(Failure(CrashStatus, Crash)))
    case Some(key) =>
      match FindById(store, key)
      case None => Reply(store, Err(Failure(CrashStatus, Crash)))
      case Some(i) => Reply(RemoveAt(store, i), Ok(store[i]))
  }
}

=== FILE: sequences.dfy ===
/** Scans over a collection in its natural order, the way `findOne` and a
    `$match` aggregation stage visit documents. */
module Sequences {
  import opened Outcomes

  /** The position of the first element satisfying `p`, if any. */
  function FirstIndex<T>(s: seq<T>, p: T -> bool): (r: Option<nat>)
    ensures r.None? <==> forall i :: 0 <= i < |s| ==> !p(s[i])
    ensures r.Some? ==> r.value < |s| && p(s[r.value])
    ensures r.Some? ==> forall i :: 0 <= i < r.value ==> !p(s[i])
  {
    if |s| == 0 then None
    else if p(s[0]) then Some(0)
    else
      match FirstIndex(s[1..], p)
      case None => None
      case Some(k) => Some(k + 1)
  }

  /** The elements of `s` satisfying `p`, in their order in `s`; see
      `FilterCount` for how many times each appears. */
  function Filter<T>(s: seq<T>, p: T -> bool): (r: seq<T>)
    ensures |r| <= |s|
    ensures forall i :: 0 <= i < |r| ==> r[i] in s && p(r[i])
    ensures forall i :: 0 <= i < |s| && p(s[i]) ==> s[i] in r
  {
    if |s| == 0 then []
    else if p(s[0]) then [s[0]] + Filter(s[1..], p)
    else Filter(s[1..], p)
  }

  /** Filtering keeps every element satisfying `p` exactly as many times as
      it occurs in `s`, and no other element. */
  lemma {:induction false} FilterCount<T(!new)>(s: seq<T>, p: T -> bool)
    ensures forall x :: multiset(Filter(s, p))[x] == if p(x) then multiset(s)[x] else 0
    decreases |s|
  {
    if |s| > 0 {
      assert s == [s[0]] + s[1..];
      FilterCount(s[1..], p);
    }
  }

  /** Filtering a sequence extended by one element extends the filtered
      sequence by that element exactly when it satisfies `p`. */
  lemma {:induction false} FilterAppend<T>(s: seq<T>, x: T, p: T -> bool)
    ensures Filter(s + [x], p) == Filter(s, p) + (if p(x) then [x] else [])
    decreases |s|
  {
    if |s| == 0 {
      assert s + [x] == [x];
      assert [x][1..] == [];
    } else {
      assert (s + [x])[1..] == s[1..] + [x];
      FilterAppend(s[1..], x, p);
    }
  }

  /** `s` without its element at position `i`. */
  function RemoveAt<T>(s: seq<T>, i: nat): (r: seq<T>)
    requires i < |s|
    ensures |r| == |s| - 1
    ensures forall j :: 0 <= j < i ==> r[j] == s[j]
    ensures forall j :: i <= j < |r| ==> r[j] == s[j + 1]
  {
    s[..i] + s[i + 1..]
  }
}

=== FILE: session_properties.dfy ===
/** Properties of the refresh-token session that relate several requests:
    rotation makes the presented token single-use, a later issuance or a
    logout revokes the stored token, and over any sequence of requests the
    emails stay unique and every stored token is one the issuer minted. */
module SessionProperties {
  import opened Outcomes
  import opened JsValues
  import opened Users

  /** `t`, if its signature verifies at all, carries the id claim `uid`:
      a token's claims are covered by its signature. */
  predicate Names(verify: Token -> Verification, t: Token, uid: UserId) {
    verify(t).Rejected? || verify(t) == Verified(uid)
  }

  /** A truthy cookie decides alone which token is presented. */
  lemma CookieTakesPrecedence(users: Users, cookie: JsValue, body: JsValue, otherBody: JsValue,
                              verify: Token -> Verification, iss: Issuance)
    requires Truthy(cookie)
    ensures Refresh(users, cookie, body, verify, iss) == Refresh(users, cookie, otherBody, verify, iss)
    ensures Refresh(users, cookie, body, verify, iss) == Refresh(users, cookie, Undefined, verify, iss)
  {
  }

  /** Once a refresh with token `t` succeeded, presenting `t` again fails
      with 401 and changes nothing, provided the issuer minted a refresh
      token different from `t` (the signer can repeat a token minted with the
      same payload in the same second, so this is an assumption). */
  lemma RefreshTokenIsSingleUse(users: Users, t: Token, uid: UserId,
                                cookie: JsValue, body: JsValue, verify: Token -> Verification, iss: Issuance,
                                cookie2: JsValue, body2: JsValue, verify2: Token -> Verification, iss2: Issuance)
    requires Presented(cookie, body) == Str(t) && Presented(cookie2, body2) == Str(t)
    requires verify(t) == Verified(uid)
    requires Refresh(users, cookie, body, verify, iss).result.Ok?
    requires iss.freshToken != t
    requires Names(verify2, t, uid)
    ensures var first := Refresh(users, cookie, body, verify, iss);
            var second := Refresh(first.state, cookie2, body2, verify2, iss2);
            && second.state == first.state
            && second.result.Err? && second.result.failure.status == 401
            && (verify2(t).Verified? ==> second.result.failure.reason == RefreshTokenExpiredOrUsed)
  {
    var first := Refresh(users, cookie, body, verify, iss);
    assert first.state[uid].refreshToken == Some(iss.freshToken);
  }

  /** Issuing a second pair for a user (a second login) revokes the refresh
      token of the first pair. */
  lemma ReissueRevokesPreviousToken(users: Users, uid: UserId, iss1: Issuance, iss2: Issuance,
                                    cookie: JsValue, body: JsValue, verify: Token -> Verification, iss3: Issuance)
    requires Issue(users, uid, iss1).result.Ok?
    requires iss2.persisted && iss2.freshToken != iss1.freshToken
    requires Presented(cookie, body) == Str(iss1.freshToken)
    requires Names(verify, iss1.freshToken, uid)
    ensures var twice := Issue(Issue(users, uid, iss1).state, uid, iss2).state;
            var r := Refresh(twice, cookie, body, verify, iss3);
            && r.state == twice && r.result.Err? && r.result.failure.status == 401
            && (verify(iss1.freshToken).Verified? && iss1.freshToken != "" ==>
                  r.result.failure.reason == RefreshTokenExpiredOrUsed)
  {
    var twice := Issue(Issue(users, uid, iss1).state, uid, iss2).state;
    assert twice[uid].refreshToken == Some(iss2.freshToken);
  }

  /** After logout, no token naming the user can be redeemed: every refresh
      fails with 401 until the next issuance. */
  lemma LogoutRevokesRefresh(users: Users, uid: UserId, cookie: JsValue, body: JsValue,
                             verify: Token -> Verification, iss: Issuance)
    requires Exists(users, uid)
    requires Presented(cookie, body).Str? ==> Names(verify, Presented(cookie, body).s, uid)
    ensures var out := Logout(users, uid).state;
            var r := Refresh(out, cookie, body, verify, iss);
            && r.state == out && r.result.Err? && r.result.failure.status == 401
            && (Presented(cookie, body).Str? && Presented(cookie, body).s != ""
                && verify(Presented(cookie, body).s).Verified? ==>
                  r.result.failure.reason == RefreshTokenExpiredOrUsed)
  {
    var out := Logout(users, uid).state;
    assert out[uid].refreshToken == None;
  }

  /** The whole lifecycle for a new user: register, log in and receive R1,
      refresh with R1 and receive R2, replay R1 and be refused, refresh with
      R2 and succeed. */
  lemma RegisterLoginRotateScenario(users: Users, email: JsValue, fullname: JsValue, password: JsValue,
                                    schemaAccepts: (JsValue, JsValue, JsValue) -> bool,
                                    passwordMatches: (User, JsValue) -> bool,
                                    verify: Token -> Verification,
                                    iss1: Issuance, iss2: Issuance, iss3: Issuance, iss4: Issuance)
    requires email.Str? && !AllWhitespace(email.s) && password.Str? && !AllWhitespace(password.s)
    requires !Truthy(fullname) || (fullname.Str? && !AllWhitespace(fullname.s))
    requires !EmailInUse(users, email) && schemaAccepts(email, fullname, password)
    requires passwordMatches(User(email, fullname, password, None), password)
    requires iss1.persisted && iss2.persisted && iss4.persisted
    requires iss1.freshToken != "" && iss2.freshToken != "" && iss1.freshToken != iss2.freshToken
    requires verify(iss1.freshToken) == Verified(|users|) && verify(iss2.freshToken) == Verified(|users|)
    ensures var registered := Register(users, email, fullname, password, schemaAccepts).state;
            var login := Login(registered, email, password, passwordMatches, iss1);
            var rotate := Refresh(login.state, Str(iss1.freshToken), Undefined, verify, iss2);
            var replay := Refresh(rotate.state, Str(iss1.freshToken), Undefined, verify, iss3);
            var again := Refresh(replay.state, Str(iss2.freshToken), Undefined, verify, iss4);
            && login.result == Ok(Session(|users|, Tokens(iss1.access, iss1.freshToken)))
            && rotate.result == Ok(Tokens(iss2.access, iss2.freshToken))
            && replay.result == Err(Failure(401, RefreshTokenExpiredOrUsed))
            && again.result == Ok(Tokens(iss4.access, iss4.freshToken))
  {
    RegistrationAccepted(users, email, fullname, password, schemaAccepts);
    var uid := |users|;
    var registered := Register(users, email, fullname, password, schemaAccepts).state;
    NewUserIsFoundByEmail(users, registered, email);
    var login := Login(registered, email, password, passwordMatches, iss1);
    assert login.result == Ok(Session(uid, Tokens(iss1.access, iss1.freshToken)));
    var rotate := Refresh(login.state, Str(iss1.freshToken), Undefined, verify, iss2);
    RedeemStored(login.state, uid, iss1.freshToken, verify, iss2);
    var replay := Refresh(rotate.state, Str(iss1.freshToken), Undefined, verify, iss3);
    ReplayRefused(rotate.state, uid, iss1.freshToken, verify, iss3);
    RedeemStored(replay.state, uid, iss2.freshToken, verify, iss4);
  }

  /** Non-blank strings for email and password, a fullname that is absent
      or not blank, an unused email and a schema that accepts the document:
      registration succeeds. */
  lemma RegistrationAccepted(users: Users, email: JsValue, fullname: JsValue, password: JsValue,
                             schemaAccepts: (JsValue, JsValue, JsValue) -> bool)
    requires email.Str? && !AllWhitespace(email.s) && password.Str? && !AllWhitespace(password.s)
    requires !Truthy(fullname) || (fullname.Str? && !AllWhitespace(fullname.s))
    requires !EmailInUse(users, email) && schemaAccepts(email, fullname, password)
    ensures Register(users, email, fullname, password, schemaAccepts).result.Ok?
    ensures Truthy(email) && Truthy(password)
  {
    BlankIffAllWhitespace(email.s);
    BlankIffAllWhitespace(password.s);
    if fullname.Str? {
      BlankIffAllWhitespace(fullname.s);
    }
  }

  /** Presenting, as the cookie, the token stored on `uid` that names `uid`
      rotates it. */
  lemma RedeemStored(users: Users, uid: UserId, t: Token, verify: Token -> Verification, iss: Issuance)
    requires Exists(users, uid) && users[uid].refreshToken == Some(t)
    requires t != "" && verify(t) == Verified(uid) && iss.persisted
    ensures var r := Refresh(users, Str(t), Undefined, verify, iss);
            && r.result == Ok(Tokens(iss.access, iss.freshToken))
            && |r.state| == |users| && r.state[uid].refreshToken == Some(iss.freshToken)
  {
    assert Redeemable(users, Str(t), verify);
  }

  /** Presenting, as the cookie, a token naming `uid` that is no longer the
      one stored on `uid` is refused as expired or used. */
  lemma ReplayRefused(users: Users, uid: UserId, t: Token, verify: Token -> Verification, iss: Issuance)
    requires Exists(users, uid) && users[uid].refreshToken != Some(t)
    requires t != "" && verify(t) == Verified(uid)
    ensures var r := Refresh(users, Str(t), Undefined, verify, iss);
            r.result == Err(Failure(401, RefreshTokenExpiredOrUsed)) && r.state == users
  {
    assert Presented(Str(t), Undefined) == Str(t);
  }

  /** A user appended to a collection that did not hold its email is the
      one `findOne({email})` finds. */
  lemma NewUserIsFoundByEmail(users: Users, registered: Users, email: JsValue)
    requires |registered| == |users| + 1 && registered[..|users|] == users
    requires registered[|users|].email == email && !EmailInUse(users, email)
    ensures FindByEmail(registered, email) == Some(|users|)
  {
    assert EmailInUse(registered, email);
  }

  // ---------------------------------------------------------------------
  // Sequences of requests

  /** The behaviour of the user schema and its methods, which live outside
      the controllers: whether `User.create` accepts a document, and the
      password comparison. */
  datatype UserModel = UserModel(schemaAccepts: (JsValue, JsValue, JsValue) -> bool,
                                 passwordMatches: (User, JsValue) -> bool)

  /** One request to a user route, with what the signer, the signature check
      and the database do during it. */
  datatype UserRequest =
    | RegisterRequest(email: JsValue, fullname: JsValue, password: JsValue)
    | LoginRequest(email: JsValue, password: JsValue, iss: Issuance)
    | RefreshRequest(cookie: JsValue, body: JsValue, verify: Token -> Verification, iss: Issuance)
    | LogoutRequest(uid: UserId)

  /** The user collection after one request. */
  function Handle(users: Users, model: UserModel, req: UserRequest): Users {
    match req
    case RegisterRequest(email, fullname, password) =>
      Register(users, email, fullname, password, model.schemaAccepts).state
    case LoginRequest(email, password, iss) =>
      Login(users, email, password, model.passwordMatches, iss).state
    case RefreshRequest(cookie, body, verify, iss) =>
      Refresh(users, cookie, body, verify, iss).state
    case LogoutRequest(uid) =>
      Logout(users, uid).state
  }

  /** The user collection after the requests, one at a time, in order. */
  function Run(users: Users, model: UserModel, reqs: seq<UserRequest>): Users
    decreases |reqs|
  {
    if |reqs| == 0 then users else Run(Handle(users, model, reqs[0]), model, reqs[1..])
  }

  predicate EmailsUnique(users: Users) {
    forall i, j :: 0 <= i < j < |users| ==> users[i].email != users[j].email
  }

  lemma HandleKeepsEmailsUnique(users: Users, model: UserModel, req: UserRequest)
    requires EmailsUnique(users)
    ensures EmailsUnique(Handle(users, model, req))
  {
    var next := Handle(users, model, req);
    if |next| == |users| {
      forall j | 0 <= j < |users|
        ensures next[j].email == users[j].email
      {
        match req
        case RegisterRequest(_, _, _) =>
        case LoginRequest(email, password, iss) =>
          var r := Login(users, email, password, model.passwordMatches, iss);
          if r.result.Ok? {
            assert OnlyTokenOf(users, next, r.result.value.user);
          }
        case RefreshRequest(cookie, body, verify, iss) =>
          var r := Refresh(users, cookie, body, verify, iss);
          if r.result.Ok? {
            assert OnlyTokenOf(users, next, verify(Presented(cookie, body).s).subject);
          }
        case LogoutRequest(uid) =>
          assert OnlyTokenOf(users, next, uid);
      }
    }
  }

  /** No sequence of requests makes two users share an email. */
  lemma {:induction false} RunKeepsEmailsUnique(users: Users, model: UserModel, reqs: seq<UserRequest>)
    requires EmailsUnique(users)
    ensures EmailsUnique(Run(users, model, reqs))
    decreases |reqs|
  {
    if |reqs| > 0 {
      HandleKeepsEmailsUnique(users, model, reqs[0]);
      RunKeepsEmailsUnique(Handle(users, model, reqs[0]), model, reqs[1..]);
    }
  }

  /** The refresh tokens stored on the user documents. */
  function StoredTokens(users: Users): set<Token> {
    set i | 0 <= i < |users| && users[i].refreshToken.Some? :: users[i].refreshToken.value
  }

  /** The refresh tokens the issuer mints during the requests. */
  function MintedTokens(reqs: seq<UserRequest>): set<Token>
    decreases |reqs|
  {
    if |reqs| == 0 then {}
    else
      (if reqs[0].LoginRequest? || reqs[0].RefreshRequest? then {reqs[0].iss.freshToken} else {})
      + MintedTokens(reqs[1..])
  }

  lemma HandleStoresOnlyMintedTokens(users: Users, model: UserModel, req: UserRequest)
    ensures StoredTokens(Handle(users, model, req)) <=
              StoredTokens(users) + (if req.LoginRequest? || req.RefreshRequest? then {req.iss.freshToken} else {})
  {
    var next := Handle(users, model, req);
    var minted: set<Token> := if req.LoginRequest? || req.RefreshRequest? then {req.iss.freshToken} else {};
    forall t | t in StoredTokens(next)
      ensures t in StoredTokens(users) + minted
    {
      var i :| 0 <= i < |next| && next[i].refreshToken == Some(t);
      match req
      case RegisterRequest(email, fullname, password) =>
        var r := Register(users, email, fullname, password, model.schemaAccepts);
        if r.result.Ok? {
          if i < |users| {
            assert next[i] == next[..|users|][i];
          }
        }
      case LoginRequest(email, password, iss) =>
        var r := Login(users, email, password, model.passwordMatches, iss);
        if r.result.Ok? {
          assert OnlyTokenOf(users, next, r.result.value.user);
        }
      case RefreshRequest(cookie, body, verify, iss) =>
        var r := Refresh(users, cookie, body, verify, iss);
        if r.result.Ok? {
          assert OnlyTokenOf(users, next, verify(Presented(cookie, body).s).subject);
        }
      case LogoutRequest(uid) =>
        assert OnlyTokenOf(users, next, uid);
    }
  }

  /** The issuer is the only writer of the stored refresh token: after any
      sequence of requests every stored token was stored before or was minted
      by one of the requests. */
  lemma {:induction false} StoredTokensWereMinted(users: Users, model: UserModel, reqs: seq<UserRequest>)
    ensures StoredTokens(Run(users, model, reqs)) <= StoredTokens(users) + MintedTokens(reqs)
    decreases |reqs|
  {
    if |reqs| > 0 {
      HandleStoresOnlyMintedTokens(users, model, reqs[0]);
      StoredTokensWereMinted(Handle(users, model, reqs[0]), model, reqs[1..]);
    }
  }
}

=== FILE: users.dfy ===
/** The user controllers: registration, login, the refresh-token rotation
    and logout, over an abstract user collection. Every user document holds at
    most one stored refresh token; the token issuer is the only code that
    writes it and logout the only code that clears it.

    What lives outside the controllers is a parameter: whether the user
    schema accepts a new document, the password comparison, the tokens the
    signer produces and whether the database accepts the save, and the
    verdict of the refresh-token signature check. */
module Users {
  import opened Outcomes
  import opened JsValues
  import opened Sequences

  type UserId = nat
  type Token = string

  /** A user document. `password` is what the client sent; hashing it and
      comparing against it happen in the user model (see `passwordMatches`). */
  datatype User = User(email: JsValue, fullname: JsValue, password: JsValue, refreshToken: Option<Token>)

  /** The user collection in insertion order; a user's id is its position. */
  type Users = seq<User>

  datatype Tokens = Tokens(access: Token, refresh: Token)

  /** What one run of the token issuer gets back from the code it calls: the
      access token and the fresh refresh token the signer mints, and whether
      the database accepts the save. Nothing makes `freshToken` differ from a
      token minted earlier; lemmas that need it say so. */
  datatype Issuance = Issuance(access: Token, freshToken: Token, persisted: bool)

  /** The outcome of verifying a refresh token's signature and expiry: the
      user id claim it carries, or a rejection. */
  datatype Verification = Rejected | Verified(subject: int)

  datatype Session = Session(user: UserId, tokens: Tokens)

  predicate Exists(users: Users, uid: int) {
    0 <= uid < |users|
  }

  /** `users'` is `users` with at most the stored refresh token of `uid`
      changed. */
  predicate OnlyTokenOf(users: Users, users': Users, uid: int) {
    && |users'| == |users|
    && forall j :: 0 <= j < |users| ==>
         users'[j] == if j == uid then users[j].(refreshToken := users'[j].refreshToken) else users[j]
  }

  predicate EmailInUse(users: Users, email: JsValue) {
    exists j :: 0 <= j < |users| && users[j].email == email
  }

  /** The user lookup by email: the first user, in insertion order, whose
      stored email equals the value sent. */
  function FindByEmail(users: Users, email: JsValue): (r: Option<UserId>)
    ensures r.None? <==> !EmailInUse(users, email)
    ensures r.Some? ==> r.value < |users| && users[r.value].email == email
    ensures r.Some? ==> forall j :: 0 <= j < r.value ==> users[j].email != email
  {
    FirstIndex(users, (u: User) => u.email == email)
  }

  // ---------------------------------------------------------------------
  // Token issuer

  /** `generateAccessTokenAndRefreshToken`: load the user, mint both tokens,
      store the refresh token on the user and save. A missing user or a failed
      save is reported as 500 and nothing is returned or stored. */
  function Issue(users: Users, uid: int, iss: Issuance): (r: Reply<Users, Tokens>)
    ensures r.result.Ok? <==> Exists(users, uid) && iss.persisted
    ensures r.result.Ok? ==>
              && r.result.value == Tokens(iss.access, iss.freshToken)
              && OnlyTokenOf(users, r.state, uid)
              && r.state[uid].refreshToken == Some(r.result.value.refresh)
    ensures r.result.Err? ==> r.state == users && r.result.failure == Failure(500, TokenGenerationFailed)
  {
    if Exists(users, uid) && iss.persisted then
      Reply(users[uid := users[uid].(refreshToken := Some(iss.freshToken))], Ok(Tokens(iss.access, iss.freshToken)))
    else
      Reply(users, Err(Failure(500, TokenGenerationFailed)))
  }

  // ---------------------------------------------------------------------
  // Registration

  /** A field that passes the registration check, which refuses a truthy
      field whose trimmed text is empty: the field is absent or otherwise
      falsy, or a string that is not whitespace only. */
  predicate PassesRegisterCheck(v: JsValue) {
    !Truthy(v) || (v.Str? && !IsBlank(v.s))
  }

  /** A non-empty string made of whitespace only. */
  predicate WhitespaceOnly(v: JsValue) {
    v.Str? && v.s != "" && IsBlank(v.s)
  }

  /** `registerUser`. The fields are checked in the order email, fullname,
      password; trimming a truthy field that is not a string throws. `schemaAccepts` is whether `User.create` accepts the document. */
  function Register(users: Users, email: JsValue, fullname: JsValue, password: JsValue,
                    schemaAccepts: (JsValue, JsValue, JsValue) -> bool): (r: Reply<Users, UserId>)
    ensures r.result.Err? ==> r.state == users
    ensures r.result.Err? ==>
              || r.result.failure == Failure(404, FieldsRequired)
              || r.result.failure == Failure(409, EmailTaken)
              || r.result.failure == Failure(CrashStatus, Crash)
    ensures r.result == Err(Failure(404, FieldsRequired)) <==>
              || WhitespaceOnly(email)
              || (PassesRegisterCheck(email) && WhitespaceOnly(fullname))
              || (PassesRegisterCheck(email) && PassesRegisterCheck(fullname) && WhitespaceOnly(password))
    ensures r.result == Err(Failure(409, EmailTaken)) <==>
              && PassesRegisterCheck(email) && PassesRegisterCheck(fullname) && PassesRegisterCheck(password)
              && EmailInUse(users, email)
    ensures r.result.Ok? <==>
              && PassesRegisterCheck(email) && PassesRegisterCheck(fullname) && PassesRegisterCheck(password)
              && !EmailInUse(users, email) && schemaAccepts(email, fullname, password)
    ensures r.result.Ok? ==>
              && r.result.value == |users|
              && |r.state| == |users| + 1 && r.state[..|users|] == users
              && r.state[|users|] == User(email, fullname, password, None)
  {
    var fields := [email, fullname, password];
    var rejected := FirstIndex(fields, (v: JsValue) => !PassesRegisterCheck(v));
    assert fields[0] == email && fields[1] == fullname && fields[2] == password;
    match rejected
    case Some(i) =>
      Reply(users, Err(if fields[i].Str? then Failure(404, FieldsRequired) else Failure(CrashStatus, Crash)))
    case None =>
      if FindByEmail(users, email).Some? then
        Reply(users, Err(Failure(409, EmailTaken)))
      else if !schemaAccepts(email, fullname, password) then
        Reply(users, Err(Failure(CrashStatus, Crash)))
      else
        Reply(users + [User(email, fullname, password, None)], Ok(|users|))
  }

  // ---------------------------------------------------------------------
  // Login

  /** `loginUser`: both fields must be truthy, the email must belong to a
      user and `passwordMatches` must accept the password; only then are
      tokens issued. */
  function Login(users: Users, email: JsValue, password: JsValue,
                 passwordMatches: (User, JsValue) -> bool, iss: Issuance): (r: Reply<Users, Session>)
    ensures r.result.Err? ==> r.state == users
    ensures !(Truthy(email) && Truthy(password)) ==> r.result == Err(Failure(400, CredentialsRequired))
    ensures Truthy(email) && Truthy(password) && !EmailInUse(users, email) ==>
              r.result == Err(Failure(404, NoSuchUser))
    ensures Truthy(email) && Truthy(password) && EmailInUse(users, email) ==>
              var uid := FindByEmail(users, email).value;
              && (!passwordMatches(users[uid], password) ==> r.result == Err(Failure(404, PasswordIncorrect)))
              && (passwordMatches(users[uid], password) && !iss.persisted ==>
                    r.result == Err(Failure(500, TokenGenerationFailed)))
    ensures r.result.Ok? <==>
              && Truthy(email) && Truthy(password) && EmailInUse(users, email)
              && passwordMatches(users[FindByEmail(users, email).value], password) && iss.persisted
    ensures r.result.Ok? ==>
              var uid := r.result.value.user;
              && Truthy(email) && Truthy(password)
              && FindByEmail(users, email) == Some(uid)
              && passwordMatches(users[uid], password)
              && r.result.value.tokens == Tokens(iss.access, iss.freshToken)
              && OnlyTokenOf(users, r.state, uid)
              && r.state[uid].refreshToken == Some(r.result.value.tokens.refresh)
  {
    if !(Truthy(email) && Truthy(password)) then
      Reply(users, Err(Failure(400, CredentialsRequired)))
    else
      match FindByEmail(users, email)
      case None => Reply(users, Err(Failure(404, NoSuchUser)))
      case Some(uid) =>
        if !passwordMatches(users[uid], password) then
          Reply(users, Err(Failure(404, PasswordIncorrect)))
        else
          var issued := Issue(users, uid, iss);
          match issued.result
          case Ok(tokens) => Reply(issued.state, Ok(Session(uid, tokens)))
          case Err(f) => Reply(users, Err(f))
  }

  // ---------------------------------------------------------------------
  // Refresh

  /** The refresh token a request presents: the cookie's when it is truthy,
      otherwise the one in the body. */
  function Presented(cookie: JsValue, body: JsValue): JsValue {
    if Truthy(cookie) then cookie else body
  }

  /** The presented token is a non-empty string whose signature check names
      an existing user whose stored token is exactly that string. */
  predicate Redeemable(users: Users, token: JsValue, verify: Token -> Verification) {
    && token.Str? && token.s != ""
    && verify(token.s).Verified?
    && Exists(users, verify(token.s).subject)
    && users[verify(token.s).subject].refreshToken == Some(token.s)
  }

  /** `refreshAccessToken`. Without a token it answers 401; everything after
      that runs inside a `try` whose `catch` answers 401 with the message of
      whatever was thrown, including the 500 of a failed issuance. A
      presented token that is not a string fails the signature check. */
  function Refresh(users: Users, cookie: JsValue, body: JsValue,
                   verify: Token -> Verification, iss: Issuance): (r: Reply<Users, Tokens>)
    ensures r.result.Err? ==> r.state == users && r.result.failure.status == 401
    ensures !Truthy(cookie) && !Truthy(body) ==> r.result == Err(Failure(401, UnauthorizedRequest))
    ensures r.result.Ok? <==> Redeemable(users, Presented(cookie, body), verify) && iss.persisted
    ensures r.result.Ok? ==>
              var uid := verify(Presented(cookie, body).s).subject;
              && r.result.value == Tokens(iss.access, iss.freshToken)
              && OnlyTokenOf(users, r.state, uid)
              && r.state[uid].refreshToken == Some(iss.freshToken)
    ensures var t := Presented(cookie, body);
            t.Str? && t.s != "" && verify(t.s).Verified? && Exists(users, verify(t.s).subject)
            && users[verify(t.s).subject].refreshToken != Some(t.s) ==>
              r.result == Err(Failure(401, RefreshTokenExpiredOrUsed))
    ensures var t := Presented(cookie, body);
            Truthy(t) && (!t.Str? || verify(t.s).Rejected?) ==>
              r.result == Err(Failure(401, RefreshTokenRejected))
    ensures var t := Presented(cookie, body);
            t.Str? && t.s != "" && verify(t.s).Verified? && !Exists(users, verify(t.s).subject) ==>
              r.result == Err(Failure(401, InvalidRefreshToken))
    ensures Redeemable(users, Presented(cookie, body), verify) && !iss.persisted ==>
              r.result == Err(Failure(401, TokenGenerationFailed))
  {
    var incoming := Presented(cookie, body);
    if !Truthy(incoming) then
      Reply(users, Err(Failure(401, UnauthorizedRequest)))
    else if !incoming.Str? || verify(incoming.s).Rejected? then
      Reply(users, Err(Failure(401, RefreshTokenRejected)))
    else
      var uid := verify(incoming.s).subject;
      if !Exists(users, uid) then
        Reply(users, Err(Failure(401, InvalidRefreshToken)))
      else if users[uid].refreshToken != Some(incoming.s) then
        Reply(users, Err(Failure(401, RefreshTokenExpiredOrUsed)))
      else
        var issued := Issue(users, uid, iss);
        match issued.result
        case Ok(_) => issued
        case Err(f) => Reply(users, Err(Failure(401, f.reason)))
  }

  // ---------------------------------------------------------------------
  // Logout

  /** `logoutUser`: unset the stored refresh token of the authenticated user.
      An id with no document leaves the collection as it is. */
  function Logout(users: Users, uid: UserId): (r: Reply<Users, ()>)
    ensures r.result.Ok?
    ensures OnlyTokenOf(users, r.state, uid)
    ensures Exists(users, uid) ==> r.state[uid].refreshToken == None
  {
    if Exists(users, uid) then
      Reply(users[uid := users[uid].(refreshToken := None)], Ok(()))
    else
      Reply(users, Ok(()))
  }
}
